=== FILE: README.md ===
# Hotel reservation engine — a Dafny model

This project models the in-memory reservation and availability engine of a small
hotel-booking web application: the reservation store and the booking service
(`services/geminiService.ts`), the records and closed enumerations they work on
(`types.ts`), and the seed catalog of hotels, rooms and users (`constants.ts`).

The service is modelled as a pure state transformer. A `Store` holds the reservation
list, the hotel list (which `addHotel` appends to) and the user table. `createBooking`
and `cancelBooking` take a store and return a `Step`: the next store and either a
value or the error the source throws. `addHotel`, which never throws, returns the
next store and the new hotel. Queries are functions of the store.

Modules, leaf first:

- `Wrappers` (wrappers.dfy): `Option` (a JavaScript `undefined`) and `Result` (a thrown `Error`).
- `Digits` (digits.dfy): decimal rendering of numbers and its inverse, used for reservation ids and dates.
- `Dates` (dates.dfy): calendar dates as `(year, month, day)` triples, their strict order, and the `YYYY-MM-DD` text form with round-trip lemmas.
- `Types` (types.dfy, modelling types.ts): `Hotel`, `Room`, `Reservation`, `User`, and the closed enumerations for room type, status and role with their literals.
- `Lookup` (lookup.dfy): the array searches the service uses (`findIndex`, `find`, `some`, `filter`).
- `Catalog` (catalog.dfy, modelling constants.ts): the seed users and hotels, catalog well-formedness, and id lookups.
- `Engine` (engine.dfy, modelling services/geminiService.ts): the store, `createBooking`, `cancelBooking`, `addHotel`, `getHotels`, `getHotelById`, `login`.
- `Listing` (listing.dfy, modelling services/geminiService.ts): `getBookingsForUser` and `getAllBookings`, with their joins and the check-in-descending sort.
- `Invariants` (invariants.dfy): no double-booking, the status history and catalog well-formedness, each preserved by every call and over any run from the seed store; and join totality, preserved only by runs whose bookings name existing users, hotels and rooms.
- `Scenarios` (scenarios.dfy): worked examples on the seed store.

Behaviour of the service worth knowing, as the code has it:

- `createBooking` checks neither that check-in precedes check-out nor that the hotel and room exist. Only the overlap check is done. The range guard lives in the booking form (App.tsx), outside this model. `Scenarios.InvertedRangeAccepted` shows an inverted range being stored.
- Errors are plain `Error` objects with messages. They are modelled as the kinds `DatesUnavailable`, `ReservationNotFound` and `MissingHotel`. `MissingHotel` stands for the `TypeError` a join raises when a reservation names no hotel.
- Cancelling an already-CANCELLED reservation succeeds and leaves it CANCELLED (`Invariants.CancelIdempotent`).
- Join totality therefore is not an invariant of the service alone. It holds for runs whose bookings name existing users, hotels and rooms (`Invariants.GuardedRun`). The user interface only issues such bookings.

## Model

| member | source | states |
|---|---|---|
| Engine.CreateBooking | services/geminiService.ts:39-61 | rejected with the store unchanged exactly when some CONFIRMED reservation on the same room overlaps the request; otherwise exactly one CONFIRMED entry is appended that copies user, hotel, room and dates, with the id for the clock reading, and all earlier entries, hotels and users are unchanged |
| Engine.IsOverlap | services/geminiService.ts:43-47 | true exactly when some stored reservation is on the room, CONFIRMED, and satisfies `checkIn < existing.checkOut` and `checkOut > existing.checkIn` |
| Invariants.BlocksIsOverlap | services/geminiService.ts:43-47 | an existing entry blocks a request exactly when it is on the same room, CONFIRMED, and the two meet the overlap test (each checks in before the other checks out) |
| Invariants.OverlapsIsSharedNight | services/geminiService.ts:46 | for two stays whose check-in precedes their check-out, the overlap test holds exactly when some night lies in both stays |
| Invariants.TouchingRangesDoNotConflict | services/geminiService.ts:46 | a request is accepted when every reservation on its room ends the day it starts or starts the day it ends |
| Invariants.CancelledNeverBlock | services/geminiService.ts:45 | a request is accepted when every reservation on its room is CANCELLED |
| Engine.ReservationIdInjective | services/geminiService.ts:55 | the ids `res-<now>` of two bookings are equal exactly when the clock readings are equal |
| Digits.Decimal | services/geminiService.ts:55 | the decimal text of a number is a non-empty digit string without leading zeros that reads back as the number |
| Digits.DecimalCanonical | services/geminiService.ts:55 | every digit string without leading zeros is the decimal text of the number it denotes, so the rendering is the unique canonical one |
| Engine.ReservationId | services/geminiService.ts:55 | the id is `res-` followed by the canonical digits of the clock reading, which read back as that reading |
| Digits.DecimalInjective | services/geminiService.ts:55 | two numbers with the same decimal text are equal |
| Engine.CancelBooking | services/geminiService.ts:63-71 | fails with ReservationNotFound and changes nothing exactly when no entry has the id; otherwise the first entry with the id becomes CANCELLED, no other field of it changes, no other entry changes, and the answer is success |
| Invariants.CancelIdempotent | services/geminiService.ts:65-68 | cancelling the same id twice gives the same store and answer as cancelling it once |
| Invariants.CancelOnlyFreesRooms | services/geminiService.ts:63-71 | after a cancellation any request that is blocked was already blocked before it |
| Invariants.CreatePreservesNoDoubleBooking | services/geminiService.ts:43-59 | if no two CONFIRMED reservations on a room overlap before createBooking, none do after it |
| Invariants.CancelPreservesNoDoubleBooking | services/geminiService.ts:65-68 | cancelBooking preserves the absence of overlapping CONFIRMED reservations on each room |
| Invariants.ApplyPreservesNoDoubleBooking | services/geminiService.ts:39-87 | each mutating call preserves the absence of overlapping CONFIRMED reservations on each room |
| Invariants.RunPreservesNoDoubleBooking | services/geminiService.ts:39-87 | any sequence of mutating calls, run one after another, preserves that absence |
| Invariants.ReachableNoDoubleBooking | services/geminiService.ts:5-7 | from the seed store, every sequence of bookings, cancellations and hotel additions leaves each room free of overlapping CONFIRMED reservations |
| Invariants.NoDoubleBookingMeansNoSharedNight | services/geminiService.ts:43-47 | whenever no two CONFIRMED same-room reservations meet the overlap test, no two of them share a night, inverted stays included |
| Invariants.ReachableNoSharedNight | services/geminiService.ts:5-7 | from the seed store, every sequence of bookings, cancellations and hotel additions leaves no two CONFIRMED stays on a room sharing a night |
| Invariants.ApplyEvolves | services/geminiService.ts:53-68 | one call only appends reservations, changes nothing but a status, never un-cancels, keeps the users, and only appends hotels |
| Invariants.RunEvolves | services/geminiService.ts:53-68 | over any run, entries are never removed, ids and references never change, and CANCELLED is terminal |
| Invariants.EvolvesTransitive | services/geminiService.ts:53-68 | the later-version relation on reservation lists composes |
| Engine.AddHotel | services/geminiService.ts:74-87 | appends one hotel with id one past the catalog's length and the caller's details, with a Double room `id*100+1` at 200 and a Suite room `id*100+2` at 350, both owned by the new hotel; reservations, users and earlier hotels are unchanged |
| Engine.DefaultRooms | services/geminiService.ts:80-83 | an added hotel's two rooms are a Double and a Suite, owned by the hotel, inside its id block, with distinct ids and positive prices |
| Invariants.AddHotelPreservesWellFormed | services/geminiService.ts:76-86 | on a well-formed catalog the new id is fresh and the catalog stays well formed |
| Invariants.RunPreservesWellFormedCatalog | services/geminiService.ts:74-87 | over any run a well-formed catalog stays well formed and its room ids stay unique |
| Invariants.AddHotelExtendsListing | services/geminiService.ts:13-21 | after addHotel, getHotels is the old listing plus the new hotel, and getHotelById answers every previously known id as before |
| Engine.GetHotels | services/geminiService.ts:13-16 | the listing is the catalog itself, every hotel in insertion order; some hotel answers to each listed id, and in a well-formed catalog looking up a listed hotel's id gives back that same hotel |
| Engine.GetHotelById | services/geminiService.ts:18-21 | the first hotel with the id, or nothing exactly when no hotel has it |
| Engine.Login | services/geminiService.ts:23-26 | the first user with the username, or nothing exactly when no user has it |
| Catalog.UserByNameUnique | services/geminiService.ts:25 | with distinct usernames, looking up a user's name returns that user |
| Catalog.HotelByIdInWellFormed | services/geminiService.ts:20 | in a well-formed catalog id k names the k-th hotel and ids outside 1..n name none |
| Catalog.HotelByIdFetchesBack | services/geminiService.ts:20 | in a well-formed catalog, looking up any hotel's own id gives back that hotel |
| Lookup.IndexOf | services/geminiService.ts:65 | the first position satisfying the test, or nothing exactly when no position does |
| Lookup.Find | services/geminiService.ts:20 | the first element satisfying the test, or nothing exactly when none does |
| Lookup.FindAppend | services/geminiService.ts:85 | appending to a list does not change what a successful search finds |
| Lookup.Any | services/geminiService.ts:43 | true exactly when some element satisfies the test |
| Lookup.Filter | services/geminiService.ts:30 | the result holds only elements of the input that pass the test and holds every element that does |
| Lookup.FilterAppend | services/geminiService.ts:30 | filtering distributes over concatenation, so it keeps store order |
| Listing.JoinOneForUser | services/geminiService.ts:33-35 | a reservation joins exactly when its hotel exists, and the view carries that reservation, its hotel by id and its room in that hotel, or no room |
| Listing.JoinOneForAdmin | services/geminiService.ts:92-95 | a reservation joins exactly when its hotel exists, and the view carries that reservation, its hotel, its room or none, and its user or none |
| Listing.UserListingExact | services/geminiService.ts:30 | every listed reservation is a CONFIRMED reservation of the user from the store, and every such reservation is listed |
| Listing.AdminListingOfOne | services/geminiService.ts:91-96 | with one reservation whose hotel exists, the admin listing is that reservation alone |
| Listing.JoinForUser | services/geminiService.ts:32-36 | succeeds exactly when every reservation's hotel exists, else fails naming the first missing hotel id; on success one view per reservation in order, with the hotel found by id and the room found in it, or absent |
| Listing.BookingsForUser | services/geminiService.ts:28-37 | succeeds exactly when the user's CONFIRMED reservations name existing hotels; then lists exactly those reservations in store order, each joined with its hotel and room |
| Listing.JoinForAdmin | services/geminiService.ts:91-95 | succeeds exactly when every reservation's hotel exists, else fails naming the first missing hotel id; on success one view per reservation in order, joined with hotel, room and user |
| Listing.AllBookings | services/geminiService.ts:89-97 | succeeds exactly when every reservation names an existing hotel; then holds every reservation whatever its status, each exactly as often as stored, joined with hotel, room and user, with check-in dates non-increasing |
| Listing.Insert | services/geminiService.ts:96 | inserting a view adds exactly that view |
| Listing.InsertSorted | services/geminiService.ts:96 | insertion keeps a latest-first list latest-first |
| Listing.SortByCheckInDesc | services/geminiService.ts:96 | the sort's output is a permutation of its input |
| Listing.SortSorted | services/geminiService.ts:96 | the sort's output has non-increasing check-in dates |
| Listing.PermutationKeepsReservations | services/geminiService.ts:96 | permuting joined views permutes the reservations behind them |
| Listing.JoinedSurvivesPermutation | services/geminiService.ts:96 | sorting keeps every view joined with its own hotel, room and user |
| Invariants.InitialResolves | services/geminiService.ts:5-7 | the seed reservation's user 1, hotel 2 and room 201 exist, room 201 inside hotel 2 |
| Invariants.AddHotelKeepsResolution | services/geminiService.ts:85 | appending a hotel keeps every resolvable reference resolving to the same hotel |
| Invariants.CreatePreservesResolution | services/geminiService.ts:53-59 | a booking that names an existing user, hotel and room keeps every reservation resolvable |
| Invariants.CancelPreservesResolution | services/geminiService.ts:65-68 | a cancellation keeps every reservation resolvable |
| Invariants.AddHotelPreservesResolution | services/geminiService.ts:85 | adding a hotel keeps every reservation resolvable |
| Invariants.ApplyPreservesResolution | services/geminiService.ts:39-87 | a call keeps every reservation's user, hotel and room resolvable, given that a booking names existing ones |
| Invariants.RunPreservesResolution | services/geminiService.ts:39-87 | a run of such calls keeps every reference resolvable |
| Invariants.UserListingTotal | services/geminiService.ts:32-36 | when every reference resolves, the user listing succeeds and every listed room is present |
| Invariants.AdminListingTotal | services/geminiService.ts:91-95 | when every reference resolves, the admin listing succeeds and every listed room and user is present |
| Invariants.ReachableListingsTotal | services/geminiService.ts:28-37 | from the seed store, runs whose bookings name existing rooms keep both listings from failing |
| Engine.SeedReservation | services/geminiService.ts:5-7 | the seed booking is CONFIRMED, its check-in precedes its check-out, and its id is one the `res-<now>` template produces |
| Engine.Initial | services/geminiService.ts:5-7 | the start-up store holds one reservation, a well-formed catalog and a well-formed user table |
| Catalog.SeedUsers | constants.ts:3-7 | three users with ids 1, 2, 3 and pairwise distinct usernames |
| Catalog.SeedHotels | constants.ts:9-87 | four hotels with ids 1..4 in order, every room owned by its hotel, inside its hotel's id block, with a positive price, no room id repeated |
| Catalog.GrandPalace | constants.ts:10-29 | hotel 1 with three well-formed rooms |
| Catalog.BeachfrontParadise | constants.ts:30-48 | hotel 2 with two well-formed rooms, the first being room 201 |
| Catalog.MountainRetreat | constants.ts:49-67 | hotel 3 with two well-formed rooms |
| Catalog.UrbanModernLoft | constants.ts:68-86 | hotel 4 with two well-formed rooms |
| Catalog.WellFormedRoomIdsUnique | constants.ts:23-84 | in a well-formed catalog no room id occurs twice |
| Catalog.HotelById | services/geminiService.ts:33 | the first hotel with the reservation's hotel id, or nothing exactly when none has it |
| Catalog.RoomById | services/geminiService.ts:34 | the first room of the hotel with the id, or nothing exactly when the hotel has none |
| Catalog.UserById | services/geminiService.ts:94 | the first user with the id, or nothing exactly when none has it |
| Catalog.UserByName | services/geminiService.ts:25 | the first user with the username, or nothing exactly when none has it |
| Types.RoomTypeOf | types.ts:17 | exactly the literals 'Single', 'Double', 'Suite' name a room type, and each names the type whose literal it is |
| Types.StatusOf | types.ts:30 | exactly the literals 'CONFIRMED' and 'CANCELLED' name a status |
| Types.RoleOf | types.ts:37 | exactly the literals 'USER' and 'ADMIN' name a role |
| Types.EnumerationsRoundTrip | types.ts:17-37 | every room type, status and role reads back from its literal |
| Dates.Format | types.ts:28-29 | a valid date prints as ten characters with dashes at positions 4 and 7 |
| Dates.Parse | types.ts:28-29 | only ten-character `YYYY-MM-DD` text naming a real calendar day is accepted |
| Dates.ParseFormat | types.ts:28-29 | parsing a formatted valid date gives the date back |
| Dates.FormatParse | types.ts:28-29 | formatting a parsed date gives the text back |
| Dates.BeforeIsStrictTotalOrder | types.ts:28-29 | the date order is irreflexive, asymmetric, transitive and total |
| Digits.FixedReadsBack | types.ts:28-29 | a number narrower than the width reads back from its zero-padded text |
| Digits.FixedOfValue | types.ts:28-29 | a digit string read as a number and printed at its own width is unchanged |
| Scenarios.OverlappingRequestRejected | services/geminiService.ts:43-51 | room 201 for 2024-08-12 to 2024-08-14 is rejected against the seed stay and the store is unchanged |
| Scenarios.TouchingRequestAccepted | services/geminiService.ts:46 | room 201 from 2024-08-15, the seed stay's check-out day, is accepted |
| Scenarios.OtherRoomFree | services/geminiService.ts:44 | the seed stay's dates are free on room 202 |
| Scenarios.InvertedRangeAccepted | services/geminiService.ts:39-61 | a check-out before the check-in is not rejected; the booking is stored |
| Scenarios.InvertedRequestBlocked | services/geminiService.ts:43-47 | an inverted request on room 201 from 2024-08-14 to 2024-08-12 contains no night, yet it is rejected against the seed stay with the store unchanged |
| Scenarios.CancelThenRebook | services/geminiService.ts:63-71 | after the seed reservation is cancelled the previously rejected request is accepted |
| Scenarios.CancelledLeavesUserListing | services/geminiService.ts:30 | after cancellation user 1's listing is empty |
| Scenarios.CancelledStaysInAdminListing | services/geminiService.ts:91-96 | after cancellation the admin listing still holds the reservation, now CANCELLED |
| Scenarios.UnknownIdRejected | services/geminiService.ts:70 | cancelling an id not in the store fails with ReservationNotFound and changes nothing |
| Scenarios.FirstAddedHotel | services/geminiService.ts:78-83 | the first hotel added to the seed catalog is hotel 5 with rooms 501 and 502 |
| Scenarios.AdminLogin | services/geminiService.ts:25 | 'admin' logs in as user 2 with the ADMIN role |
| Scenarios.UnknownLogin | services/geminiService.ts:25 | a name no seed user has yields nothing |
| Scenarios.CancelledSeed | services/geminiService.ts:67 | cancelling the seed reservation leaves one entry, the seed reservation with status CANCELLED |

## Left out

- Asynchrony: `delay`, `setTimeout` and `async` are timing only. Each call awaits once, at its start, and then checks and updates the store without yielding, so on JavaScript's single-threaded event loop each call is one atomic step. Interleaved concurrent calls therefore amount to some sequence of calls, which `Invariants.ReachableNoDoubleBooking` covers.
- Clock: `Date.now()` is the parameter `now` of `CreateBooking`. The source does not guarantee fresh ids, since two bookings in the same millisecond get the same id. The model proves only that different clock readings give different ids.
- Overlap test on inverted ranges: the source's test is shared-night intersection only for stays whose check-in precedes their check-out (`Invariants.OverlapsIsSharedNight`). For an inverted range it is just the two comparisons, which can reject a request that occupies no night (`Scenarios.InvertedRequestBlocked`). `NoDoubleBooking` is stated with those comparisons; `Invariants.ReachableNoSharedNight` gives the night-based form for every stay.
- Date parsing: `new Date(text)` is a foreign call. Stored dates are `(year, month, day)` triples compared lexicographically. For valid `YYYY-MM-DD` text this agrees with the source's comparison. Malformed text, which the source compares as NaN, is not modelled.
- Floats and display fields: the hotel `rating`, `description`, `imageUrl` and `gallery` are not modelled.
- Number width: ids and prices are JavaScript numbers; the model uses unbounded integers, so `id*100+1` does not round for very large ids.
- Object identity: the source returns the same objects it stores, so a caller could mutate the store through them. The model returns values.
- Spread copies: `...bookingDetails` and `...hotelData` would copy any extra fields a caller passes. The model's request records have exactly the declared fields.
- Listing.SortByCheckInDesc: states a permutation with non-increasing check-in dates, not stability. The source's sort is stable. `Insert` puts an earlier entry ahead of later ones with the same check-in date, but no lemma states this.
- Views and presentation: App.tsx, including its check-out-after-check-in guard and night count, and components/Card.tsx are not part of this model.

=== FILE: catalog.dfy ===
/** The catalog of hotels and rooms and the table of users: their seed contents
    (constants.ts), their well-formedness, and the lookups the service runs on them. */
module Catalog {
  import opened Wrappers
  import opened Types
  import opened Lookup

  /** Room ids live in their hotel's block of a hundred: hotel k owns k*100+1 .. k*100+99. */
  predicate InRoomBlock(hotelId: int, roomId: int) {
    hotelId * 100 < roomId < hotelId * 100 + 100
  }

  /** Every room names its owner, sits in its owner's id block, has a positive
      nightly price, and no two rooms of the hotel share an id. */
  predicate HotelWellFormed(h: Hotel) {
    && (forall k :: 0 <= k < |h.rooms| ==>
          h.rooms[k].hotelId == h.id && InRoomBlock(h.id, h.rooms[k].id) && h.rooms[k].price > 0)
    && (forall k, l :: 0 <= k < l < |h.rooms| ==> h.rooms[k].id != h.rooms[l].id)
  }

  /** Hotel ids are 1, 2, 3, ... in list order and every hotel is well formed. */
  predicate WellFormedCatalog(hs: seq<Hotel>) {
    forall i :: 0 <= i < |hs| ==> hs[i].id == i + 1 && HotelWellFormed(hs[i])
  }

  /** No room id occurs twice anywhere in the catalog. */
  predicate RoomIdsUnique(hs: seq<Hotel>) {
    forall i, k, j, l ::
      (0 <= i < |hs| && 0 <= k < |hs[i].rooms| && 0 <= j < |hs| && 0 <= l < |hs[j].rooms|
       && hs[i].rooms[k].id == hs[j].rooms[l].id) ==> i == j && k == l
  }

  /** The id blocks of distinct hotels are disjoint, so room ids are unique catalog-wide. */
  lemma WellFormedRoomIdsUnique(hs: seq<Hotel>)
    requires WellFormedCatalog(hs)
    ensures RoomIdsUnique(hs)
  {
    forall i, k, j, l |
      0 <= i < |hs| && 0 <= k < |hs[i].rooms| && 0 <= j < |hs| && 0 <= l < |hs[j].rooms|
      && hs[i].rooms[k].id == hs[j].rooms[l].id
      ensures i == j && k == l
    {
      assert HotelWellFormed(hs[i]) && HotelWellFormed(hs[j]);
      assert InRoomBlock(i + 1, hs[i].rooms[k].id);
      assert InRoomBlock(j + 1, hs[j].rooms[l].id);
    }
  }

  /** Usernames are pairwise distinct and user ids are 1, 2, 3, ... in list order. */
  predicate WellFormedUsers(us: seq<User>) {
    && (forall i :: 0 <= i < |us| ==> us[i].id == i + 1)
    && (forall i, j :: 0 <= i < j < |us| ==> us[i].username != us[j].username)
  }

  /** The seed user table. */
  function SeedUsers(): (us: seq<User>)
    ensures |us| == 3 && WellFormedUsers(us)
  {
    [ User(1, "user", "Sairaj", Customer),
      User(2, "admin", "Admin User", Admin),
      User(3, "sairajyellewar", "Sairaj Yellewar", Customer) ]
  }

  /** The seed catalog: four hotels with ids 1..4 and nine rooms. */
  function SeedHotels(): (hs: seq<Hotel>)
    ensures |hs| == 4 && WellFormedCatalog(hs)
  {
    [GrandPalace(), BeachfrontParadise(), MountainRetreat(), UrbanModernLoft()]
  }

  function GrandPalace(): (h: Hotel)
    ensures h.id == 1 && |h.rooms| == 3 && HotelWellFormed(h)
  {
    Hotel(1, "The Grand Palace", "Hyderabad, India",
          "$$$",
          [ Room(101, 1, Single, 150, "101", ["Wi-Fi", "TV", "AC"]),
            Room(102, 1, Double, 250, "102", ["Wi-Fi", "TV", "AC", "Mini-bar"]),
            Room(103, 1, Suite, 400, "201", ["Wi-Fi", "TV", "AC", "Mini-bar", "Jacuzzi"]) ],
          [FreeBreakfast, CoupleFriendly])
  }

  function BeachfrontParadise(): (h: Hotel)
    ensures h.id == 2 && |h.rooms| == 2 && HotelWellFormed(h)
    ensures h.rooms[0].id == 201
  {
    Hotel(2, "Beachfront Paradise", "Goa, India",
          "$$$$",
          [ Room(201, 2, Double, 350, "B12", ["Wi-Fi", "TV", "AC", "Balcony"]),
            Room(202, 2, Suite, 600, "C-01", ["Wi-Fi", "TV", "AC", "Mini-bar", "Ocean View"]) ],
          [FreeCancellation, CoupleFriendly])
  }

  function MountainRetreat(): (h: Hotel)
    ensures h.id == 3 && |h.rooms| == 2 && HotelWellFormed(h)
  {
    Hotel(3, "Mountain Retreat", "Shimla, India",
          "$$",
          [ Room(301, 3, Single, 120, "A1", ["Wi-Fi", "Heater", "Fireplace"]),
            Room(302, 3, Double, 200, "A2", ["Wi-Fi", "Heater", "Fireplace", "Mountain View"]) ],
          [FreeCancellation, FreeBreakfast])
  }

  function UrbanModernLoft(): (h: Hotel)
    ensures h.id == 4 && |h.rooms| == 2 && HotelWellFormed(h)
  {
    Hotel(4, "Urban Modern Loft", "Mumbai, India",
          "$$$",
          [ Room(401, 4, Double, 220, "505", ["Wi-Fi", "TV", "AC", "Kitchenette"]),
            Room(402, 4, Suite, 380, "801", ["Wi-Fi", "Smart TV", "AC", "Full Kitchen"]) ],
          [CoupleFriendly])
  }

  /** The first hotel with the given id. */
  function HotelById(hs: seq<Hotel>, id: int): (r: Option<Hotel>)
    ensures r.None? <==> forall i :: 0 <= i < |hs| ==> hs[i].id != id
    ensures r.Some? ==> r.value.id == id
    ensures r.Some? ==> exists i :: 0 <= i < |hs| && hs[i] == r.value
                                    && forall j :: 0 <= j < i ==> hs[j].id != id
  {
    Find(hs, (h: Hotel) => h.id == id)
  }

  /** The first room of the hotel with the given id. */
  function RoomById(h: Hotel, id: int): (r: Option<Room>)
    ensures r.None? <==> forall k :: 0 <= k < |h.rooms| ==> h.rooms[k].id != id
    ensures r.Some? ==> r.value.id == id
    ensures r.Some? ==> exists k :: 0 <= k < |h.rooms| && h.rooms[k] == r.value
                                    && forall j :: 0 <= j < k ==> h.rooms[j].id != id
  {
    Find(h.rooms, (room: Room) => room.id == id)
  }

  /** The first user with the given id. */
  function UserById(us: seq<User>, id: int): (r: Option<User>)
    ensures r.None? <==> forall i :: 0 <= i < |us| ==> us[i].id != id
    ensures r.Some? ==> r.value.id == id
    ensures r.Some? ==> exists i :: 0 <= i < |us| && us[i] == r.value
                                    && forall j :: 0 <= j < i ==> us[j].id != id
  {
    Find(us, (u: User) => u.id == id)
  }

  /** The first user with the given username. */
  function UserByName(us: seq<User>, username: string): (r: Option<User>)
    ensures r.None? <==> forall i :: 0 <= i < |us| ==> us[i].username != username
    ensures r.Some? ==> r.value.username == username
    ensures r.Some? ==> exists i :: 0 <= i < |us| && us[i] == r.value
                                    && forall j :: 0 <= j < i ==> us[j].username != username
  {
    Find(us, (u: User) => u.username == username)
  }

  /** In a well-formed catalog, hotel id k names the k-th hotel and nothing else names one. */
  lemma HotelByIdInWellFormed(hs: seq<Hotel>, id: int)
    requires WellFormedCatalog(hs)
    ensures 1 <= id <= |hs| ==> HotelById(hs, id) == Some(hs[id - 1])
    ensures !(1 <= id <= |hs|) ==> HotelById(hs, id).None?
  {
    if 1 <= id <= |hs| {
      assert hs[id - 1].id == id;
    }
  }

  /** In a well-formed catalog, looking up a hotel's own id gives back that hotel. */
  lemma HotelByIdFetchesBack(hs: seq<Hotel>)
    requires WellFormedCatalog(hs)
    ensures forall i :: 0 <= i < |hs| ==> HotelById(hs, hs[i].id) == Some(hs[i])
  {
    forall i | 0 <= i < |hs|
      ensures HotelById(hs, hs[i].id) == Some(hs[i])
    {
      HotelByIdInWellFormed(hs, hs[i].id);
    }
  }

  /** With distinct usernames, login finds THE user with that name. */
  lemma UserByNameUnique(us: seq<User>, i: nat)
    requires WellFormedUsers(us) && i < |us|
    ensures UserByName(us, us[i].username) == Some(us[i])
  {
    var r := UserByName(us, us[i].username);
    var k :| 0 <= k < |us| && us[k] == r.value
             && forall j :: 0 <= j < k ==> us[j].username != us[i].username;
    if k < i {
      assert us[k].username != us[i].username;
    }
  }
}

=== FILE: dates.dfy ===
/** Calendar dates with no time component, in the `YYYY-MM-DD` form the
    reservation records carry (types.ts:28-29), and their order. */
module Dates {
  import opened Wrappers
  import opened Digits

  datatype Date = Date(year: int, month: int, day: int)

  predicate IsLeapYear(y: int) {
    (y % 4 == 0 && y % 100 != 0) || y % 400 == 0
  }

  function DaysInMonth(y: int, m: int): int {
    if m == 2 then (if IsLeapYear(y) then 29 else 28)
    else if m == 4 || m == 6 || m == 9 || m == 11 then 30
    else 31
  }

  /** A date the four-digit `YYYY-MM-DD` form can name. */
  predicate Valid(d: Date) {
    && 0 <= d.year <= 9999
    && 1 <= d.month <= 12
    && 1 <= d.day <= DaysInMonth(d.year, d.month)
  }

  /** Strictly earlier, year first, then month, then day. */
  predicate Before(a: Date, b: Date) {
    || a.year < b.year
    || (a.year == b.year && a.month < b.month)
    || (a.year == b.year && a.month == b.month && a.day < b.day)
  }

  /** Before is a strict total order. */
  lemma BeforeIsStrictTotalOrder(a: Date, b: Date, c: Date)
    ensures !Before(a, a)
    ensures Before(a, b) ==> !Before(b, a)
    ensures Before(a, b) && Before(b, c) ==> Before(a, c)
    ensures a != b ==> Before(a, b) || Before(b, a)
  {
  }

  /** The text form: four-digit year, two-digit month, two-digit day, dash separated. */
  function Format(d: Date): (s: string)
    requires Valid(d)
    ensures |s| == 10 && s[4] == '-' && s[7] == '-'
  {
    Fixed(d.year, 4) + "-" + Fixed(d.month, 2) + "-" + Fixed(d.day, 2)
  }

  /** Reads `YYYY-MM-DD`; anything else, or a day the calendar lacks, is None. */
  function Parse(s: string): (r: Option<Date>)
    ensures r.Some? ==> Valid(r.value)
    ensures r.Some? ==> |s| == 10 && s[4] == '-' && s[7] == '-'
  {
    if |s| == 10 && s[4] == '-' && s[7] == '-'
       && AllDigits(s[0..4]) && AllDigits(s[5..7]) && AllDigits(s[8..10]) then
      var d := Date(NumberValue(s[0..4]), NumberValue(s[5..7]), NumberValue(s[8..10]));
      if Valid(d) then Some(d) else None
    else None
  }

  /** Formatting a valid date and parsing the text gives the date back. */
  lemma ParseFormat(d: Date)
    requires Valid(d)
    ensures Parse(Format(d)) == Some(d)
  {
    var s := Format(d);
    var y, m, dd := Fixed(d.year, 4), Fixed(d.month, 2), Fixed(d.day, 2);
    assert s[0..4] == y && s[5..7] == m && s[8..10] == dd;
    Widths();
    FixedReadsBack(d.year, 4);
    FixedReadsBack(d.month, 2);
    FixedReadsBack(d.day, 2);
    assert Date(NumberValue(s[0..4]), NumberValue(s[5..7]), NumberValue(s[8..10])) == d;
  }

  lemma Widths()
    ensures Pow10(2) == 100 && Pow10(4) == 10000
  {
  }

  /** Parsing accepted text and formatting the date gives the text back. */
  lemma FormatParse(s: string)
    requires Parse(s).Some?
    ensures Format(Parse(s).value) == s
  {
    FixedOfValue(s[0..4]);
    FixedOfValue(s[5..7]);
    FixedOfValue(s[8..10]);
    assert s == s[0..4] + "-" + s[5..7] + "-" + s[8..10];
  }
}

=== FILE: digits.dfy ===
/** Decimal digits: rendering a natural number as text and reading it back. */
module Digits {

  predicate IsDigit(c: char) {
    '0' <= c <= '9'
  }

  predicate AllDigits(s: string) {
    forall i :: 0 <= i < |s| ==> IsDigit(s[i])
  }

  function DigitChar(d: int): (c: char)
    requires 0 <= d < 10
    ensures IsDigit(c)
  {
    ('0' as int + d) as char
  }

  function DigitValue(c: char): (d: int)
    requires IsDigit(c)
    ensures 0 <= d < 10
  {
    c as int - '0' as int
  }

  function Pow10(w: nat): (p: nat)
    ensures p >= 1
  {
    if w == 0 then 1 else 10 * Pow10(w - 1)
  }

  /** The number a string of decimal digits denotes, most significant digit first. */
  function NumberValue(s: string): (n: nat)
    requires AllDigits(s)
    ensures n < Pow10(|s|)
  {
    if |s| == 0 then 0
    else NumberValue(s[..|s| - 1]) * 10 + DigitValue(s[|s| - 1])
  }

  /** The shortest decimal rendering of `n`, as JavaScript's template strings print an integer. */
  function Decimal(n: nat): (s: string)
    ensures |s| >= 1 && AllDigits(s)
    ensures NumberValue(s) == n
    ensures Canonical(s)
  {
    if n < 10 then [DigitChar(n)]
    else
      var s := Decimal(n / 10) + [DigitChar(n % 10)];
      assert s[..|s| - 1] == Decimal(n / 10);
      s
  }

  /** A digit string without leading zeros: a single digit, or one that starts with 1-9. */
  predicate Canonical(s: string) {
    |s| >= 1 && (|s| == 1 || s[0] != '0')
  }

  /** A canonical digit string denotes at least 10^(length-1). */
  lemma {:induction false} CanonicalAtLeast(s: string)
    requires AllDigits(s) && Canonical(s) && |s| >= 2
    ensures NumberValue(s) >= 10
  {
    var init := s[..|s| - 1];
    assert init[0] == s[0];
    if |init| >= 2 {
      CanonicalAtLeast(init);
    } else {
      assert NumberValue(init) == DigitValue(init[0]) >= 1;
    }
  }

  /** The decimal rendering is the only canonical text of a number: every digit
      string without leading zeros is the rendering of the number it denotes. */
  lemma {:induction false} DecimalCanonical(s: string)
    requires AllDigits(s) && Canonical(s)
    ensures Decimal(NumberValue(s)) == s
  {
    var n := NumberValue(s);
    if |s| == 1 {
      assert n == DigitValue(s[0]);
    } else {
      var init := s[..|s| - 1];
      assert init[0] == s[0];
      CanonicalAtLeast(s);
      var d := DigitValue(s[|s| - 1]);
      assert n == NumberValue(init) * 10 + d;
      ModUnique(n, 10, NumberValue(init), d);
      assert n / 10 == NumberValue(init);
      DecimalCanonical(init);
      assert Decimal(n) == Decimal(n / 10) + [DigitChar(n % 10)];
      assert s == init + [s[|s| - 1]];
    }
  }

  /** Different numbers never render to the same text. */
  lemma DecimalInjective(m: nat, n: nat)
    requires Decimal(m) == Decimal(n)
    ensures m == n
  {
    assert NumberValue(Decimal(m)) == m;
  }

  /** The last `w` decimal digits of `n`, zero-padded to exactly width `w`. */
  function Fixed(n: nat, w: nat): (s: string)
    ensures |s| == w && AllDigits(s)
    ensures NumberValue(s) == n % Pow10(w)
  {
    if w == 0 then []
    else
      var s := Fixed(n / 10, w - 1) + [DigitChar(n % 10)];
      assert s[..|s| - 1] == Fixed(n / 10, w - 1);
      ModPowStep(n, w);
      s
  }

  lemma ModPowStep(n: nat, w: nat)
    requires w >= 1
    ensures n % Pow10(w) == (n / 10) % Pow10(w - 1) * 10 + n % 10
  {
    var p := Pow10(w - 1);
    var q := n / 10;
    var d := n % 10;
    var a := q / p;
    var b := q % p;
    assert n == (a * p + b) * 10 + d;
    assert n == a * (10 * p) + (b * 10 + d);
    ModUnique(n, 10 * p, a, b * 10 + d);
  }

  /** Division with remainder has one answer. */
  lemma ModUnique(n: int, m: int, q: int, r: int)
    requires m > 0 && n == q * m + r && 0 <= r < m
    ensures n % m == r
  {
    var q', r' := n / m, n % m;
    assert n == q' * m + r';
    assert q * m - q' * m == r' - r;
    MulSub(q, q', m);
    if q > q' {
      MulAtLeast(q - q', m);
    } else if q < q' {
      MulAtLeast(q' - q, m);
    }
  }

  lemma MulSub(a: int, b: int, m: int)
    ensures a * m - b * m == (a - b) * m
  {
  }

  lemma MulAtLeast(k: int, m: int)
    requires k >= 1 && m > 0
    ensures k * m >= m
  {
    assert k * m == (k - 1) * m + m;
  }

  /** A number narrower than the width reads back from its fixed-width text. */
  lemma FixedReadsBack(n: nat, w: nat)
    requires n < Pow10(w)
    ensures NumberValue(Fixed(n, w)) == n
  {
    ModUnique(n, Pow10(w), 0, n);
  }

  /** A digit string read as a number and rendered at its own width is the same string. */
  lemma {:induction false} FixedOfValue(s: string)
    requires AllDigits(s)
    ensures Fixed(NumberValue(s), |s|) == s
  {
    if |s| > 0 {
      var init := s[..|s| - 1];
      var n := NumberValue(s);
      assert n / 10 == NumberValue(init);
      assert n % 10 == DigitValue(s[|s| - 1]);
      FixedOfValue(init);
      assert Fixed(n, |s|) == Fixed(NumberValue(init), |init|) + [DigitChar(DigitValue(s[|s| - 1]))];
      assert s == init + [s[|s| - 1]];
    }
  }
}

=== FILE: engine.dfy ===
/** The booking service (services/geminiService.ts) as a pure state transformer:
    each mutating call takes the store and returns the next store with its answer. */
module Engine {
  import opened Wrappers
  import opened Digits
  import opened Dates
  import opened Types
  import opened Lookup
  import opened Catalog

  /** The service's mutable state: the reservation list, the hotel list that
      `addHotel` appends to, and the (never mutated) user table. */
  datatype Store = Store(reservations: seq<Reservation>, hotels: seq<Hotel>, users: seq<User>)

  /** The errors the service throws; MissingHotel is the TypeError a join raises
      when a reservation's hotel id names no hotel. */
  datatype ApiError = DatesUnavailable | ReservationNotFound | MissingHotel(hotelId: int)

  /** The store after a call, and what the call returned or threw. */
  datatype Step<+T> = Step(store: Store, result: Result<T, ApiError>)

  /** The fields a caller supplies to createBooking: a reservation without id and status. */
  datatype BookingRequest = BookingRequest(userId: int, hotelId: int, roomId: int, checkIn: Date, checkOut: Date)

  /** The fields a caller supplies to addHotel: a hotel without id and rooms. */
  datatype HotelDetails = HotelDetails(name: string, address: string, priceRange: string, amenities: seq<HotelAmenity>)

  /** The one reservation the store starts with: a CONFIRMED stay with a proper date
      range whose id is one the id template produces (for the clock reading its
      digits denote). */
  function SeedReservation(): (r: Reservation)
    ensures r.status == Confirmed && Before(r.checkIn, r.checkOut)
    ensures |r.id| > 4 && AllDigits(r.id[4..]) && r.id == ReservationId(NumberValue(r.id[4..]))
  {
    var id := "res-1672531200000";
    assert id[4..] == "1672531200000";
    DecimalCanonical(id[4..]);
    Reservation(id, 1, 201, 2, Date(2024, 8, 10), Date(2024, 8, 15), Confirmed)
  }

  /** The store at start-up: the seed reservation, the seed catalog and the seed users. */
  function Initial(): (s: Store)
    ensures |s.reservations| == 1 && WellFormedCatalog(s.hotels) && WellFormedUsers(s.users)
  {
    Store([SeedReservation()], SeedHotels(), SeedUsers())
  }

  // ---------------------------------------------------------------- lookups

  /** getHotels: the catalog itself, every hotel in insertion order. Some hotel answers
      to every listed id, and in a well-formed catalog it is the listed hotel itself. */
  function GetHotels(s: Store): (hs: seq<Hotel>)
    ensures hs == s.hotels
    ensures forall i :: 0 <= i < |hs| ==> GetHotelById(s, hs[i].id).Some?
    ensures WellFormedCatalog(s.hotels) ==>
              forall i :: 0 <= i < |hs| ==> GetHotelById(s, hs[i].id) == Some(hs[i])
  {
    if WellFormedCatalog(s.hotels) then HotelByIdFetchesBack(s.hotels); s.hotels
    else s.hotels
  }

  /** getHotelById: the first hotel of the catalog with that id, or nothing. */
  function GetHotelById(s: Store, id: int): (r: Option<Hotel>)
    ensures r.None? <==> forall i :: 0 <= i < |s.hotels| ==> s.hotels[i].id != id
    ensures r.Some? ==> exists i :: 0 <= i < |s.hotels| && s.hotels[i] == r.value && r.value.id == id
                                    && forall j :: 0 <= j < i ==> s.hotels[j].id != id
  {
    HotelById(s.hotels, id)
  }

  /** login: the first user with that username, or nothing; no credential is checked. */
  function Login(s: Store, username: string): (r: Option<User>)
    ensures r.None? <==> forall i :: 0 <= i < |s.users| ==> s.users[i].username != username
    ensures r.Some? ==> exists i :: 0 <= i < |s.users| && s.users[i] == r.value && r.value.username == username
                                    && forall j :: 0 <= j < i ==> s.users[j].username != username
  {
    UserByName(s.users, username)
  }

  // ----------------------------------------------------------- availability

  /** An existing reservation blocks a request when it is CONFIRMED, on the same
      room, and the half-open ranges intersect: both comparisons are strict. */
  predicate Blocks(existing: Reservation, roomId: int, checkIn: Date, checkOut: Date) {
    && existing.roomId == roomId
    && existing.status == Confirmed
    && Before(checkIn, existing.checkOut)
    && Before(existing.checkIn, checkOut)
  }

  /** The availability check: does any stored reservation block the request? */
  function IsOverlap(rs: seq<Reservation>, roomId: int, checkIn: Date, checkOut: Date): (b: bool)
    ensures b <==> exists i :: 0 <= i < |rs| && Blocks(rs[i], roomId, checkIn, checkOut)
  {
    Any(rs, (r: Reservation) => Blocks(r, roomId, checkIn, checkOut))
  }

  /** The id a reservation created at clock reading `now` (milliseconds) gets. */
  function ReservationId(now: nat): (id: string)
    ensures |id| > 4 && id[..4] == "res-"
    ensures AllDigits(id[4..]) && Canonical(id[4..]) && NumberValue(id[4..]) == now
  {
    "res-" + Decimal(now)
  }

  /** Reservations created at different clock readings get different ids;
      two created within the same millisecond get the same one. */
  lemma ReservationIdInjective(m: nat, n: nat)
    ensures ReservationId(m) == ReservationId(n) <==> m == n
  {
    if ReservationId(m) == ReservationId(n) {
      assert Decimal(m) == ReservationId(m)[4..];
      DecimalInjective(m, n);
    }
  }

  // -------------------------------------------------------------- mutations

  /** createBooking: rejected, store untouched, exactly when some CONFIRMED reservation
      on the room overlaps the request; otherwise one CONFIRMED reservation copying the
      request is appended. Neither the range nor the hotel and room are validated. */
  function CreateBooking(s: Store, req: BookingRequest, now: nat): (r: Step<Reservation>)
    ensures r.result.Failure? <==>
              exists i :: 0 <= i < |s.reservations| && Blocks(s.reservations[i], req.roomId, req.checkIn, req.checkOut)
    ensures r.result.Failure? ==> r.store == s && r.result.error == DatesUnavailable
    ensures r.result.Success? ==>
              var n := r.result.value;
              && n.id == ReservationId(now) && n.status == Confirmed
              && n.userId == req.userId && n.hotelId == req.hotelId && n.roomId == req.roomId
              && n.checkIn == req.checkIn && n.checkOut == req.checkOut
              && r.store.hotels == s.hotels && r.store.users == s.users
              && |r.store.reservations| == |s.reservations| + 1
              && r.store.reservations[..|s.reservations|] == s.reservations
              && r.store.reservations[|s.reservations|] == n
  {
    if IsOverlap(s.reservations, req.roomId, req.checkIn, req.checkOut) then
      Step(s, Failure(DatesUnavailable))
    else
      var n := Reservation(ReservationId(now), req.userId, req.roomId, req.hotelId,
                           req.checkIn, req.checkOut, Confirmed);
      Step(s.(reservations := s.reservations + [n]), Success(n))
  }

  /** Everything about a reservation except its status. */
  predicate SameExceptStatus(a: Reservation, b: Reservation) {
    a == b.(status := a.status)
  }

  /** cancelBooking: with no reservation of that id it throws and changes nothing;
      otherwise the FIRST reservation with that id becomes CANCELLED (whatever its
      status was) and nothing else changes. */
  function CancelBooking(s: Store, id: string): (r: Step<bool>)
    ensures r.result.Failure? <==> forall i :: 0 <= i < |s.reservations| ==> s.reservations[i].id != id
    ensures r.result.Failure? ==> r.store == s && r.result.error == ReservationNotFound
    ensures r.result.Success? ==>
              && r.result.value
              && r.store.hotels == s.hotels && r.store.users == s.users
              && |r.store.reservations| == |s.reservations|
              && exists i :: 0 <= i < |s.reservations|
                   && s.reservations[i].id == id
                   && (forall j :: 0 <= j < i ==> s.reservations[j].id != id)
                   && r.store.reservations[i].status == Cancelled
                   && (forall j :: 0 <= j < |s.reservations| ==>
                         SameExceptStatus(r.store.reservations[j], s.reservations[j]))
                   && (forall j :: 0 <= j < |s.reservations| && j != i ==>
                         r.store.reservations[j] == s.reservations[j])
  {
    match IndexOf(s.reservations, (res: Reservation) => res.id == id)
    case None => Step(s, Failure(ReservationNotFound))
    case Some(i) =>
      var rs := s.reservations[i := s.reservations[i].(status := Cancelled)];
      Step(s.(reservations := rs), Success(true))
  }

  /** The two rooms every added hotel starts with: a Double and a Suite, both owned by
      the hotel, inside its id block, with distinct ids and positive prices. */
  function DefaultRooms(hotelId: int): (rs: seq<Room>)
    ensures |rs| == 2 && rs[0].kind == Double && rs[1].kind == Suite
    ensures HotelWellFormed(Hotel(hotelId, "", "", "", rs, []))
  {
    [ Room(hotelId * 100 + 1, hotelId, Double, 200, "101", ["Wi-Fi", "TV", "AC"]),
      Room(hotelId * 100 + 2, hotelId, Suite, 350, "201", ["Wi-Fi", "TV", "AC", "Mini-bar"]) ]
  }

  /** addHotel: appends a hotel numbered one past the catalog's length, carrying the
      caller's details and a Double (200) and a Suite (350) room; nothing else changes. */
  function AddHotel(s: Store, d: HotelDetails): (r: (Store, Hotel))
    ensures var h := r.1;
            && h.id == |s.hotels| + 1
            && h.name == d.name && h.address == d.address
            && h.priceRange == d.priceRange && h.amenities == d.amenities
            && |h.rooms| == 2
            && h.rooms[0].id == h.id * 100 + 1 && h.rooms[0].kind == Double && h.rooms[0].price == 200
            && h.rooms[1].id == h.id * 100 + 2 && h.rooms[1].kind == Suite && h.rooms[1].price == 350
            && h.rooms[0].hotelId == h.id && h.rooms[1].hotelId == h.id
    ensures r.0.reservations == s.reservations && r.0.users == s.users
    ensures |r.0.hotels| == |s.hotels| + 1
    ensures r.0.hotels[..|s.hotels|] == s.hotels && r.0.hotels[|s.hotels|] == r.1
  {
    var id := |s.hotels| + 1;
    var h := Hotel(id, d.name, d.address, d.priceRange, DefaultRooms(id), d.amenities);
    (s.(hotels := s.hotels + [h]), h)
  }
}

=== FILE: invariants.dfy ===
/** What the service keeps true across calls: no room is double-booked, a
    reservation only ever moves from CONFIRMED to CANCELLED, the catalog stays
    well formed, and the joins stay total while bookings name real rooms. */
module Invariants {
  import opened Wrappers
  import opened Dates
  import opened Types
  import opened Lookup
  import opened Catalog
  import opened Engine
  import opened Listing

  // ------------------------------------------------------------ no overlap

  /** The overlap test between two reservations: each checks in before the other checks
      out. For proper ranges this is a shared night (`OverlapsIsSharedNight`). */
  predicate Overlaps(a: Reservation, b: Reservation) {
    Before(a.checkIn, b.checkOut) && Before(b.checkIn, a.checkOut)
  }

  /** The night starting on `d` belongs to the stay: check-in <= d < check-out. */
  predicate InStay(d: Date, r: Reservation) {
    !Before(d, r.checkIn) && Before(d, r.checkOut)
  }

  /** For stays whose check-in precedes their check-out, the two comparisons of the
      overlap test hold exactly when the stays share a night. */
  lemma {:induction false} OverlapsIsSharedNight(a: Reservation, b: Reservation)
    requires Before(a.checkIn, a.checkOut) && Before(b.checkIn, b.checkOut)
    ensures Overlaps(a, b) <==> exists d :: InStay(d, a) && InStay(d, b)
  {
    if Overlaps(a, b) {
      BeforeIsStrictTotalOrder(a.checkIn, b.checkIn, a.checkIn);
      BeforeIsStrictTotalOrder(b.checkIn, a.checkIn, b.checkIn);
      var d := if Before(a.checkIn, b.checkIn) then b.checkIn else a.checkIn;
      assert InStay(d, a) && InStay(d, b);
    }
    if d :| InStay(d, a) && InStay(d, b) {
      BeforeIsStrictTotalOrder(a.checkIn, d, b.checkOut);
      BeforeIsStrictTotalOrder(b.checkIn, d, a.checkOut);
      assert Before(a.checkIn, b.checkOut);
      assert Before(b.checkIn, a.checkOut);
    }
  }

  /** No two distinct CONFIRMED reservations on the same room overlap. */
  predicate NoDoubleBooking(rs: seq<Reservation>) {
    forall i, j ::
      (0 <= i < |rs| && 0 <= j < |rs| && i != j
       && rs[i].roomId == rs[j].roomId
       && rs[i].status == Confirmed && rs[j].status == Confirmed) ==> !Overlaps(rs[i], rs[j])
  }

  /** The availability check rejects exactly what would overlap the new reservation. */
  lemma BlocksIsOverlap(e: Reservation, n: Reservation)
    ensures Blocks(e, n.roomId, n.checkIn, n.checkOut) <==>
              e.roomId == n.roomId && e.status == Confirmed && Overlaps(n, e)
  {
  }

  lemma {:induction false} CreatePreservesNoDoubleBooking(s: Store, req: BookingRequest, now: nat)
    requires NoDoubleBooking(s.reservations)
    ensures NoDoubleBooking(CreateBooking(s, req, now).store.reservations)
  {
    var r := CreateBooking(s, req, now);
    if r.result.Success? {
      var rs, rs' := s.reservations, r.store.reservations;
      var n := r.result.value;
      forall i, j |
        0 <= i < |rs'| && 0 <= j < |rs'| && i != j
        && rs'[i].roomId == rs'[j].roomId
        && rs'[i].status == Confirmed && rs'[j].status == Confirmed
        ensures !Overlaps(rs'[i], rs'[j])
      {
        if i == |rs| {
          assert rs'[j] == rs[j];
          assert !Blocks(rs[j], req.roomId, req.checkIn, req.checkOut);
          BlocksIsOverlap(rs[j], n);
        } else if j == |rs| {
          assert rs'[i] == rs[i];
          assert !Blocks(rs[i], req.roomId, req.checkIn, req.checkOut);
          BlocksIsOverlap(rs[i], n);
        } else {
          assert rs'[i] == rs[i] && rs'[j] == rs[j];
        }
      }
    }
  }

  lemma {:induction false} CancelPreservesNoDoubleBooking(s: Store, id: string)
    requires NoDoubleBooking(s.reservations)
    ensures NoDoubleBooking(CancelBooking(s, id).store.reservations)
  {
    var r := CancelBooking(s, id);
    if r.result.Success? {
      var rs, rs' := s.reservations, r.store.reservations;
      forall i, j |
        0 <= i < |rs'| && 0 <= j < |rs'| && i != j
        && rs'[i].roomId == rs'[j].roomId
        && rs'[i].status == Confirmed && rs'[j].status == Confirmed
        ensures !Overlaps(rs'[i], rs'[j])
      {
        assert SameExceptStatus(rs'[i], rs[i]) && SameExceptStatus(rs'[j], rs[j]);
      }
    }
  }

  /** Cancelling never makes a room less available: whatever a request could book
      before the cancellation it can still book after it. */
  lemma {:induction false} CancelOnlyFreesRooms(s: Store, id: string, roomId: int, checkIn: Date, checkOut: Date)
    ensures IsOverlap(CancelBooking(s, id).store.reservations, roomId, checkIn, checkOut) ==>
              IsOverlap(s.reservations, roomId, checkIn, checkOut)
  {
    var rs, rs' := s.reservations, CancelBooking(s, id).store.reservations;
    if IsOverlap(rs', roomId, checkIn, checkOut) {
      var i :| 0 <= i < |rs'| && Blocks(rs'[i], roomId, checkIn, checkOut);
      assert SameExceptStatus(rs'[i], rs[i]);
      assert Blocks(rs[i], roomId, checkIn, checkOut);
    }
  }

  /** A stay that ends the day the request starts, or starts the day it ends,
      does not block it. */
  lemma TouchingRangesDoNotConflict(s: Store, req: BookingRequest, now: nat)
    requires forall i :: 0 <= i < |s.reservations| && s.reservations[i].roomId == req.roomId ==>
               s.reservations[i].checkOut == req.checkIn || s.reservations[i].checkIn == req.checkOut
    ensures CreateBooking(s, req, now).result.Success?
  {
    BeforeIsStrictTotalOrder(req.checkIn, req.checkOut, req.checkIn);
    BeforeIsStrictTotalOrder(req.checkOut, req.checkIn, req.checkOut);
  }

  /** Cancelled reservations never block a booking. */
  lemma CancelledNeverBlock(s: Store, req: BookingRequest, now: nat)
    requires forall i :: 0 <= i < |s.reservations| && s.reservations[i].roomId == req.roomId ==>
               s.reservations[i].status == Cancelled
    ensures CreateBooking(s, req, now).result.Success?
  {
  }

  /** Cancelling the same id twice is the same as cancelling it once. */
  lemma {:induction false} CancelIdempotent(s: Store, id: string)
    ensures CancelBooking(CancelBooking(s, id).store, id) == CancelBooking(s, id)
  {
    var r := CancelBooking(s, id);
    if r.result.Success? {
      var rs, rs' := s.reservations, r.store.reservations;
      var i := IndexOf(rs, (res: Reservation) => res.id == id).value;
      assert forall j :: 0 <= j < |rs| ==> rs'[j].id == rs[j].id;
      assert IndexOf(rs', (res: Reservation) => res.id == id) == Some(i);
      assert rs'[i := rs'[i].(status := Cancelled)] == rs';
    }
  }

  // --------------------------------------------------------------- history

  /** One reservation list is a later version of another: entries are only
      appended, nothing but status ever changes, and CANCELLED is final. */
  predicate Evolves(rs: seq<Reservation>, rs': seq<Reservation>) {
    && |rs| <= |rs'|
    && forall i :: 0 <= i < |rs| ==>
         SameExceptStatus(rs'[i], rs[i]) && (rs[i].status == Cancelled ==> rs'[i].status == Cancelled)
  }

  lemma EvolvesTransitive(a: seq<Reservation>, b: seq<Reservation>, c: seq<Reservation>)
    requires Evolves(a, b) && Evolves(b, c)
    ensures Evolves(a, c)
  {
  }

  /** The calls a client makes that change the store. */
  datatype Op =
    | CreateOp(req: BookingRequest, now: nat)
    | CancelOp(id: string)
    | AddHotelOp(details: HotelDetails)

  function Apply(s: Store, op: Op): Store {
    match op
    case CreateOp(req, now) => CreateBooking(s, req, now).store
    case CancelOp(id) => CancelBooking(s, id).store
    case AddHotelOp(d) => AddHotel(s, d).0
  }

  /** The store after the calls `ops`, one after another, none interleaved. */
  function Run(s: Store, ops: seq<Op>): Store
    decreases |ops|
  {
    if |ops| == 0 then s else Run(Apply(s, ops[0]), ops[1..])
  }

  lemma ApplyEvolves(s: Store, op: Op)
    ensures Evolves(s.reservations, Apply(s, op).reservations)
    ensures Apply(s, op).users == s.users
    ensures |s.hotels| <= |Apply(s, op).hotels| && Apply(s, op).hotels[..|s.hotels|] == s.hotels
  {
  }

  /** Over any run, ids and references never change, entries are never removed,
      and a CANCELLED reservation is never confirmed again. */
  lemma {:induction false} RunEvolves(s: Store, ops: seq<Op>)
    ensures Evolves(s.reservations, Run(s, ops).reservations)
    decreases |ops|
  {
    if |ops| > 0 {
      var s' := Apply(s, ops[0]);
      ApplyEvolves(s, ops[0]);
      RunEvolves(s', ops[1..]);
      EvolvesTransitive(s.reservations, s'.reservations, Run(s', ops[1..]).reservations);
    }
  }

  lemma ApplyPreservesNoDoubleBooking(s: Store, op: Op)
    requires NoDoubleBooking(s.reservations)
    ensures NoDoubleBooking(Apply(s, op).reservations)
  {
    match op
    case CreateOp(req, now) => CreatePreservesNoDoubleBooking(s, req, now);
    case CancelOp(id) => CancelPreservesNoDoubleBooking(s, id);
    case AddHotelOp(d) =>
  }

  lemma {:induction false} RunPreservesNoDoubleBooking(s: Store, ops: seq<Op>)
    requires NoDoubleBooking(s.reservations)
    ensures NoDoubleBooking(Run(s, ops).reservations)
    decreases |ops|
  {
    if |ops| > 0 {
      ApplyPreservesNoDoubleBooking(s, ops[0]);
      RunPreservesNoDoubleBooking(Apply(s, ops[0]), ops[1..]);
    }
  }

  /** From the seed store, any sequence of bookings, cancellations and hotel
      additions leaves every room free of overlapping CONFIRMED reservations. */
  lemma ReachableNoDoubleBooking(ops: seq<Op>)
    ensures NoDoubleBooking(Run(Initial(), ops).reservations)
  {
    RunPreservesNoDoubleBooking(Initial(), ops);
  }

  /** No two distinct CONFIRMED reservations on the same room share a night. */
  ghost predicate NoSharedNight(rs: seq<Reservation>) {
    forall i, j, d ::
      (0 <= i < |rs| && 0 <= j < |rs| && i != j
       && rs[i].roomId == rs[j].roomId
       && rs[i].status == Confirmed && rs[j].status == Confirmed) ==> !(InStay(d, rs[i]) && InStay(d, rs[j]))
  }

  /** The comparison-based invariant implies the night-based one, inverted stays
      included: a stay holding a night is a proper range. */
  lemma {:induction false} NoDoubleBookingMeansNoSharedNight(rs: seq<Reservation>)
    requires NoDoubleBooking(rs)
    ensures NoSharedNight(rs)
  {
    forall i, j, d |
      0 <= i < |rs| && 0 <= j < |rs| && i != j
      && rs[i].roomId == rs[j].roomId
      && rs[i].status == Confirmed && rs[j].status == Confirmed
      ensures !(InStay(d, rs[i]) && InStay(d, rs[j]))
    {
      assert !Overlaps(rs[i], rs[j]);
      BeforeIsStrictTotalOrder(rs[i].checkIn, d, rs[j].checkOut);
      BeforeIsStrictTotalOrder(rs[j].checkIn, d, rs[i].checkOut);
    }
  }

  /** From the seed store, no sequence of calls ever lets two CONFIRMED stays on one
      room share a night. */
  lemma ReachableNoSharedNight(ops: seq<Op>)
    ensures NoSharedNight(Run(Initial(), ops).reservations)
  {
    ReachableNoDoubleBooking(ops);
    NoDoubleBookingMeansNoSharedNight(Run(Initial(), ops).reservations);
  }

  // ---------------------------------------------------------------- catalog

  /** Adding a hotel keeps the catalog well formed, and the new id is fresh. */
  lemma AddHotelPreservesWellFormed(s: Store, d: HotelDetails)
    requires WellFormedCatalog(s.hotels)
    ensures WellFormedCatalog(AddHotel(s, d).0.hotels)
    ensures forall i :: 0 <= i < |s.hotels| ==> s.hotels[i].id != AddHotel(s, d).1.id
  {
    var h := AddHotel(s, d).1;
    assert InRoomBlock(h.id, h.rooms[0].id) && InRoomBlock(h.id, h.rooms[1].id);
    assert HotelWellFormed(h);
  }

  /** The hotel listing after addHotel is the listing before it plus the new hotel,
      and every id that named a hotel still names the same one. */
  lemma AddHotelExtendsListing(s: Store, d: HotelDetails, id: int)
    ensures GetHotels(AddHotel(s, d).0) == GetHotels(s) + [AddHotel(s, d).1]
    ensures GetHotelById(s, id).Some? ==> GetHotelById(AddHotel(s, d).0, id) == GetHotelById(s, id)
  {
    if GetHotelById(s, id).Some? {
      FindAppend(s.hotels, [AddHotel(s, d).1], (h: Hotel) => h.id == id);
    }
  }

  lemma {:induction false} RunPreservesWellFormedCatalog(s: Store, ops: seq<Op>)
    requires WellFormedCatalog(s.hotels)
    ensures WellFormedCatalog(Run(s, ops).hotels)
    ensures RoomIdsUnique(Run(s, ops).hotels)
    decreases |ops|
  {
    if |ops| == 0 {
      WellFormedRoomIdsUnique(s.hotels);
    } else {
      if ops[0].AddHotelOp? {
        AddHotelPreservesWellFormed(s, ops[0].details);
      }
      RunPreservesWellFormedCatalog(Apply(s, ops[0]), ops[1..]);
    }
  }

  // ------------------------------------------------------------- resolution

  /** The hotel, room and user a reservation names all exist, the room inside that hotel. */
  predicate RefsResolve(hs: seq<Hotel>, us: seq<User>, userId: int, hotelId: int, roomId: int) {
    && HotelById(hs, hotelId).Some?
    && RoomById(HotelById(hs, hotelId).value, roomId).Some?
    && UserById(us, userId).Some?
  }

  predicate Resolves(hs: seq<Hotel>, us: seq<User>, r: Reservation) {
    RefsResolve(hs, us, r.userId, r.hotelId, r.roomId)
  }

  predicate AllResolve(s: Store) {
    forall i :: 0 <= i < |s.reservations| ==> Resolves(s.hotels, s.users, s.reservations[i])
  }

  /** The seed reservation names user 1, hotel 2 and room 201, all of which exist. */
  lemma InitialResolves()
    ensures AllResolve(Initial())
  {
    var s := Initial();
    assert s.hotels[1] == BeachfrontParadise();
    assert HotelById(s.hotels, 2) == Some(s.hotels[1]);
    assert s.hotels[1].rooms[0].id == 201;
    assert s.users[0].id == 1;
  }

  lemma {:induction false} AddHotelKeepsResolution(s: Store, d: HotelDetails, userId: int, hotelId: int, roomId: int)
    requires RefsResolve(s.hotels, s.users, userId, hotelId, roomId)
    ensures RefsResolve(AddHotel(s, d).0.hotels, s.users, userId, hotelId, roomId)
    ensures HotelById(AddHotel(s, d).0.hotels, hotelId) == HotelById(s.hotels, hotelId)
  {
    var hs' := AddHotel(s, d).0.hotels;
    assert hs' == s.hotels + [AddHotel(s, d).1];
    FindAppend(s.hotels, [AddHotel(s, d).1], (h: Hotel) => h.id == hotelId);
  }

  /** A call that keeps every reservation resolvable, given that a booking names
      an existing user, hotel and room. createBooking itself does not check this. */
  predicate Guarded(s: Store, op: Op) {
    op.CreateOp? ==> RefsResolve(s.hotels, s.users, op.req.userId, op.req.hotelId, op.req.roomId)
  }

  lemma CreatePreservesResolution(s: Store, req: BookingRequest, now: nat)
    requires AllResolve(s) && RefsResolve(s.hotels, s.users, req.userId, req.hotelId, req.roomId)
    ensures AllResolve(CreateBooking(s, req, now).store)
  {
    var r := CreateBooking(s, req, now);
    if r.result.Success? {
      var n := r.result.value;
      assert r.store.reservations == s.reservations + [n];
      assert Resolves(s.hotels, s.users, n);
    }
  }

  lemma CancelPreservesResolution(s: Store, id: string)
    requires AllResolve(s)
    ensures AllResolve(CancelBooking(s, id).store)
  {
    var s' := CancelBooking(s, id).store;
    forall i | 0 <= i < |s'.reservations|
      ensures Resolves(s'.hotels, s'.users, s'.reservations[i])
    {
      assert SameExceptStatus(s'.reservations[i], s.reservations[i]);
    }
  }

  lemma AddHotelPreservesResolution(s: Store, d: HotelDetails)
    requires AllResolve(s)
    ensures AllResolve(AddHotel(s, d).0)
  {
    var s' := AddHotel(s, d).0;
    forall i | 0 <= i < |s'.reservations|
      ensures Resolves(s'.hotels, s'.users, s'.reservations[i])
    {
      var r := s.reservations[i];
      AddHotelKeepsResolution(s, d, r.userId, r.hotelId, r.roomId);
    }
  }

  lemma ApplyPreservesResolution(s: Store, op: Op)
    requires AllResolve(s) && Guarded(s, op)
    ensures AllResolve(Apply(s, op))
  {
    match op
    case CreateOp(req, now) => CreatePreservesResolution(s, req, now);
    case CancelOp(id) => CancelPreservesResolution(s, id);
    case AddHotelOp(d) => AddHotelPreservesResolution(s, d);
  }

  /** Every booking of the run names an existing user, hotel and room at the time it is made. */
  predicate GuardedRun(s: Store, ops: seq<Op>)
    decreases |ops|
  {
    |ops| > 0 ==> Guarded(s, ops[0]) && GuardedRun(Apply(s, ops[0]), ops[1..])
  }

  lemma {:induction false} RunPreservesResolution(s: Store, ops: seq<Op>)
    requires AllResolve(s) && GuardedRun(s, ops)
    ensures AllResolve(Run(s, ops))
    decreases |ops|
  {
    if |ops| > 0 {
      ApplyPreservesResolution(s, ops[0]);
      RunPreservesResolution(Apply(s, ops[0]), ops[1..]);
    }
  }

  /** While every reservation resolves, the user listing succeeds and every joined
      room is present: the non-null assertions of its join hold. */
  lemma UserListingTotal(s: Store, userId: int)
    requires AllResolve(s)
    ensures BookingsForUser(s, userId).Success?
    ensures forall k :: 0 <= k < |BookingsForUser(s, userId).value| ==> BookingsForUser(s, userId).value[k].room.Some?
  {
    var mine := BookingsForUser(s, userId).value;
    forall k | 0 <= k < |mine|
      ensures mine[k].room.Some?
    {
      var r := mine[k].reservation;
      assert r in s.reservations;
      assert Resolves(s.hotels, s.users, r);
    }
  }

  /** While every reservation resolves, the admin listing succeeds and every joined
      room and user is present: the non-null assertions of its join hold. */
  lemma AdminListingTotal(s: Store)
    requires AllResolve(s)
    ensures AllBookings(s).Success?
    ensures forall k :: 0 <= k < |AllBookings(s).value| ==>
              AllBookings(s).value[k].room.Some? && AllBookings(s).value[k].user.Some?
  {
    var all := AllBookings(s).value;
    forall k | 0 <= k < |all|
      ensures all[k].room.Some? && all[k].user.Some?
    {
      var r := all[k].reservation;
      assert Reservations(all)[k] == r;
      assert r in multiset(s.reservations);
      var i :| 0 <= i < |s.reservations| && s.reservations[i] == r;
      assert Resolves(s.hotels, s.users, r);
    }
  }

  /** From the seed store, a run whose bookings name real rooms keeps both listings total. */
  lemma ReachableListingsTotal(ops: seq<Op>, userId: int)
    requires GuardedRun(Initial(), ops)
    ensures BookingsForUser(Run(Initial(), ops), userId).Success?
    ensures AllBookings(Run(Initial(), ops)).Success?
  {
    InitialResolves();
    RunPreservesResolution(Initial(), ops);
    UserListingTotal(Run(Initial(), ops), userId);
    AdminListingTotal(Run(Initial(), ops));
  }
}

=== FILE: listing.dfy ===
/** The two read-side queries of the service: a user's confirmed bookings and the
    administrator's list of every booking, each joined with the catalog. */
module Listing {
  import opened Wrappers
  import opened Dates
  import opened Types
  import opened Lookup
  import opened Catalog
  import opened Engine

  /** A reservation with its hotel and, when the hotel has it, its room. */
  datatype UserBooking = UserBooking(reservation: Reservation, hotel: Hotel, room: Option<Room>)

  /** A reservation with its hotel, room and user; a room or user the lookup
      misses is left absent, as the source leaves it `undefined`. */
  datatype AdminBooking = AdminBooking(reservation: Reservation, hotel: Hotel, room: Option<Room>, user: Option<User>)

  /** The reservation's hotel id names a hotel of the catalog. */
  predicate HotelResolves(hs: seq<Hotel>, r: Reservation) {
    HotelById(hs, r.hotelId).Some?
  }

  /** A user view is the join of its reservation with the catalog. */
  predicate JoinedForUser(hs: seq<Hotel>, v: UserBooking) {
    && HotelById(hs, v.reservation.hotelId) == Some(v.hotel)
    && v.room == RoomById(v.hotel, v.reservation.roomId)
  }

  /** An admin view is the join of its reservation with the catalog and the users. */
  predicate JoinedForAdmin(hs: seq<Hotel>, us: seq<User>, v: AdminBooking) {
    && HotelById(hs, v.reservation.hotelId) == Some(v.hotel)
    && v.room == RoomById(v.hotel, v.reservation.roomId)
    && v.user == UserById(us, v.reservation.userId)
  }

  /** The body of getBookingsForUser's map: the reservation with its hotel and room;
      nothing when the hotel is missing (the source then throws). */
  function JoinOneForUser(hs: seq<Hotel>, r: Reservation): (v: Option<UserBooking>)
    ensures v.Some? <==> HotelResolves(hs, r)
    ensures v.Some? ==> v.value.reservation == r && JoinedForUser(hs, v.value)
  {
    match HotelById(hs, r.hotelId)
    case None => None
    case Some(h) => Some(UserBooking(r, h, RoomById(h, r.roomId)))
  }

  /** The body of getAllBookings' map: the reservation with its hotel, room and user;
      nothing when the hotel is missing (the source then throws). */
  function JoinOneForAdmin(hs: seq<Hotel>, us: seq<User>, r: Reservation): (v: Option<AdminBooking>)
    ensures v.Some? <==> HotelResolves(hs, r)
    ensures v.Some? ==> v.value.reservation == r && JoinedForAdmin(hs, us, v.value)
  {
    match HotelById(hs, r.hotelId)
    case None => None
    case Some(h) => Some(AdminBooking(r, h, RoomById(h, r.roomId), UserById(us, r.userId)))
  }

  /** The map step of getBookingsForUser: throws on the first reservation whose hotel is missing. */
  function JoinForUser(hs: seq<Hotel>, rs: seq<Reservation>): (r: Result<seq<UserBooking>, ApiError>)
    ensures r.Success? <==> forall k :: 0 <= k < |rs| ==> HotelResolves(hs, rs[k])
    ensures r.Failure? ==> exists k :: 0 <= k < |rs| && !HotelResolves(hs, rs[k])
                                       && (forall j :: 0 <= j < k ==> HotelResolves(hs, rs[j]))
                                       && r.error == MissingHotel(rs[k].hotelId)
    ensures r.Success? ==> |r.value| == |rs|
    ensures r.Success? ==> forall k :: 0 <= k < |rs| ==> Some(r.value[k]) == JoinOneForUser(hs, rs[k])
  {
    match IndexOf(rs, (res: Reservation) => !HotelResolves(hs, res))
    case Some(k) => Failure(MissingHotel(rs[k].hotelId))
    case None => Success(seq(|rs|, k requires 0 <= k < |rs| => JoinOneForUser(hs, rs[k]).value))
  }

  /** The map step of getAllBookings: throws on the first reservation whose hotel is missing. */
  function JoinForAdmin(hs: seq<Hotel>, us: seq<User>, rs: seq<Reservation>): (r: Result<seq<AdminBooking>, ApiError>)
    ensures r.Success? <==> forall k :: 0 <= k < |rs| ==> HotelResolves(hs, rs[k])
    ensures r.Failure? ==> exists k :: 0 <= k < |rs| && !HotelResolves(hs, rs[k])
                                       && (forall j :: 0 <= j < k ==> HotelResolves(hs, rs[j]))
                                       && r.error == MissingHotel(rs[k].hotelId)
    ensures r.Success? ==> |r.value| == |rs|
    ensures r.Success? ==> forall k :: 0 <= k < |rs| ==> Some(r.value[k]) == JoinOneForAdmin(hs, us, rs[k])
  {
    match IndexOf(rs, (res: Reservation) => !HotelResolves(hs, res))
    case Some(k) => Failure(MissingHotel(rs[k].hotelId))
    case None => Success(seq(|rs|, k requires 0 <= k < |rs| => JoinOneForAdmin(hs, us, rs[k]).value))
  }

  /** The reservations behind a list of admin views, in order. */
  function Reservations(vs: seq<AdminBooking>): seq<Reservation> {
    seq(|vs|, k requires 0 <= k < |vs| => vs[k].reservation)
  }

  lemma ReservationsAppend(a: seq<AdminBooking>, b: seq<AdminBooking>)
    ensures Reservations(a + b) == Reservations(a) + Reservations(b)
  {
  }

  /** Rearranging views rearranges the reservations behind them the same way. */
  lemma {:induction false} PermutationKeepsReservations(a: seq<AdminBooking>, b: seq<AdminBooking>)
    requires multiset(a) == multiset(b)
    ensures multiset(Reservations(a)) == multiset(Reservations(b))
    decreases |a|
  {
    if |a| == 0 {
      assert |b| == |multiset(b)| == 0;
    } else {
      var x := a[0];
      assert x in multiset(b);
      var k :| 0 <= k < |b| && b[k] == x;
      var b' := b[..k] + b[k + 1..];
      assert b == b[..k] + [x] + b[k + 1..];
      assert a == [x] + a[1..];
      calc {
        multiset(a[1..]);
        multiset(a) - multiset{x};
        multiset(b) - multiset{x};
        { assert multiset(b) == multiset(b[..k]) + multiset{x} + multiset(b[k + 1..]); }
        multiset(b');
      }
      PermutationKeepsReservations(a[1..], b');
      ReservationsAppend([x], a[1..]);
      ReservationsAppend(b[..k] + [x], b[k + 1..]);
      ReservationsAppend(b[..k], [x]);
      ReservationsAppend(b[..k], b[k + 1..]);
    }
  }

  /** The filter of getBookingsForUser: this user's CONFIRMED reservations. */
  predicate ListedFor(userId: int, r: Reservation) {
    r.userId == userId && r.status == Confirmed
  }

  /** getBookingsForUser: the user's CONFIRMED reservations in store order, each joined
      with its hotel and room; throws when one of them names a missing hotel. */
  function BookingsForUser(s: Store, userId: int): (r: Result<seq<UserBooking>, ApiError>)
    ensures r.Success? <==>
              forall i :: 0 <= i < |s.reservations| && ListedFor(userId, s.reservations[i]) ==>
                HotelResolves(s.hotels, s.reservations[i])
    ensures r.Success? ==>
              var mine := Filter(s.reservations, (res: Reservation) => ListedFor(userId, res));
              && |r.value| == |mine|
              && forall k :: 0 <= k < |mine| ==>
                   r.value[k].reservation == mine[k] && JoinedForUser(s.hotels, r.value[k])
  {
    JoinForUser(s.hotels, Filter(s.reservations, (res: Reservation) => ListedFor(userId, res)))
  }

  /** The user listing holds only the user's CONFIRMED reservations from the store,
      and every one of them. */
  lemma UserListingExact(s: Store, userId: int)
    requires BookingsForUser(s, userId).Success?
    ensures var vs := BookingsForUser(s, userId).value;
            forall k :: 0 <= k < |vs| ==>
              ListedFor(userId, vs[k].reservation) && vs[k].reservation in s.reservations
    ensures var vs := BookingsForUser(s, userId).value;
            forall i :: 0 <= i < |s.reservations| && ListedFor(userId, s.reservations[i]) ==>
              exists k :: 0 <= k < |vs| && vs[k].reservation == s.reservations[i]
  {
    var vs := BookingsForUser(s, userId).value;
    var mine := Filter(s.reservations, (res: Reservation) => ListedFor(userId, res));
    forall i | 0 <= i < |s.reservations| && ListedFor(userId, s.reservations[i])
      ensures exists k :: 0 <= k < |vs| && vs[k].reservation == s.reservations[i]
    {
      assert s.reservations[i] in mine;
      var k :| 0 <= k < |mine| && mine[k] == s.reservations[i];
      assert vs[k].reservation == s.reservations[i];
    }
  }

  /** Check-in dates never increase along the list. */
  predicate SortedByCheckInDesc(vs: seq<AdminBooking>) {
    forall i, j :: 0 <= i < j < |vs| ==> !Before(vs[i].reservation.checkIn, vs[j].reservation.checkIn)
  }

  /** Inserts `v` ahead of the first view whose check-in is not later than its own. */
  function Insert(v: AdminBooking, vs: seq<AdminBooking>): (r: seq<AdminBooking>)
    ensures multiset(r) == multiset(vs) + multiset{v}
  {
    if |vs| == 0 then [v]
    else if !Before(v.reservation.checkIn, vs[0].reservation.checkIn) then [v] + vs
    else
      assert vs == [vs[0]] + vs[1..];
      [vs[0]] + Insert(v, vs[1..])
  }

  /** Inserting into a list sorted latest-first keeps it sorted latest-first. */
  lemma {:induction false} InsertSorted(v: AdminBooking, vs: seq<AdminBooking>)
    requires SortedByCheckInDesc(vs)
    ensures SortedByCheckInDesc(Insert(v, vs))
  {
    if |vs| > 0 && Before(v.reservation.checkIn, vs[0].reservation.checkIn) {
      var tail := Insert(v, vs[1..]);
      InsertSorted(v, vs[1..]);
      var r := [vs[0]] + tail;
      forall j | 0 < j < |r|
        ensures !Before(vs[0].reservation.checkIn, r[j].reservation.checkIn)
      {
        assert r[j] in multiset(tail);
        if r[j] != v {
          assert r[j] in multiset(vs[1..]);
          var m :| 0 <= m < |vs[1..]| && vs[1..][m] == r[j];
          assert vs[m + 1] == r[j];
        }
      }
    }
  }

  /** Stable insertion sort, latest check-in first, as the source's comparator
      `b.checkIn - a.checkIn` orders. */
  function SortByCheckInDesc(vs: seq<AdminBooking>): (r: seq<AdminBooking>)
    ensures multiset(r) == multiset(vs)
  {
    if |vs| == 0 then []
    else
      assert vs == [vs[0]] + vs[1..];
      Insert(vs[0], SortByCheckInDesc(vs[1..]))
  }

  /** The sort's output is ordered latest check-in first. */
  lemma {:induction false} SortSorted(vs: seq<AdminBooking>)
    ensures SortedByCheckInDesc(SortByCheckInDesc(vs))
  {
    if |vs| > 0 {
      SortSorted(vs[1..]);
      InsertSorted(vs[0], SortByCheckInDesc(vs[1..]));
    }
  }

  /** getAllBookings: every reservation whatever its status, joined with hotel, room
      and user, latest check-in first; throws when one names a missing hotel. */
  function AllBookings(s: Store): (r: Result<seq<AdminBooking>, ApiError>)
    ensures r.Success? <==> forall i :: 0 <= i < |s.reservations| ==> HotelResolves(s.hotels, s.reservations[i])
    ensures r.Failure? ==> exists i :: 0 <= i < |s.reservations| && r.error == MissingHotel(s.reservations[i].hotelId)
                                       && !HotelResolves(s.hotels, s.reservations[i])
    ensures r.Success? ==> multiset(Reservations(r.value)) == multiset(s.reservations)
    ensures r.Success? ==> SortedByCheckInDesc(r.value)
    ensures r.Success? ==> forall k :: 0 <= k < |r.value| ==> JoinedForAdmin(s.hotels, s.users, r.value[k])
  {
    match JoinForAdmin(s.hotels, s.users, s.reservations)
    case Failure(e) => Failure(e)
    case Success(joined) =>
      var sorted := SortByCheckInDesc(joined);
      SortSorted(joined);
      PermutationKeepsReservations(sorted, joined);
      assert Reservations(joined) == s.reservations;
      JoinedSurvivesPermutation(s.hotels, s.users, joined, sorted);
      Success(sorted)
  }

  lemma JoinedSurvivesPermutation(hs: seq<Hotel>, us: seq<User>, a: seq<AdminBooking>, b: seq<AdminBooking>)
    requires multiset(a) == multiset(b)
    requires forall k :: 0 <= k < |a| ==> JoinedForAdmin(hs, us, a[k])
    ensures forall k :: 0 <= k < |b| ==> JoinedForAdmin(hs, us, b[k])
  {
    forall k | 0 <= k < |b|
      ensures JoinedForAdmin(hs, us, b[k])
    {
      assert b[k] in multiset(a);
      var m :| 0 <= m < |a| && a[m] == b[k];
    }
  }

  /** With a single reservation whose hotel exists, the admin listing is that reservation alone. */
  lemma AdminListingOfOne(s: Store)
    requires |s.reservations| == 1 && HotelResolves(s.hotels, s.reservations[0])
    ensures AllBookings(s).Success?
    ensures |AllBookings(s).value| == 1 && AllBookings(s).value[0].reservation == s.reservations[0]
  {
    var all := AllBookings(s).value;
    assert |Reservations(all)| == |multiset(Reservations(all))| == 1;
    assert Reservations(all)[0] in multiset(s.reservations);
  }
}

=== FILE: lookup.dfy ===
/** The array searches the service leans on: `findIndex`, `find`, `some` and `filter`. */
module Lookup {
  import opened Wrappers

  /** The position of the first element satisfying `p`, or None when no element does. */
  function IndexOf<T>(xs: seq<T>, p: T -> bool): (r: Option<nat>)
    ensures r.Some? ==> r.value < |xs| && p(xs[r.value])
    ensures r.Some? ==> forall j :: 0 <= j < r.value ==> !p(xs[j])
    ensures r.None? <==> forall j :: 0 <= j < |xs| ==> !p(xs[j])
  {
    if |xs| == 0 then None
    else if p(xs[0]) then Some(0)
    else
      match IndexOf(xs[1..], p)
      case None => None
      case Some(i) => Some(i + 1)
  }

  /** The first element satisfying `p`, or None when no element does. */
  function Find<T>(xs: seq<T>, p: T -> bool): (r: Option<T>)
    ensures r.None? <==> forall j :: 0 <= j < |xs| ==> !p(xs[j])
    ensures r.Some? ==> exists i :: 0 <= i < |xs| && xs[i] == r.value && p(xs[i])
                                    && forall j :: 0 <= j < i ==> !p(xs[j])
  {
    match IndexOf(xs, p)
    case None => None
    case Some(i) => Some(xs[i])
  }

  /** Searching an extended sequence finds what the original search found. */
  lemma {:induction false} FindAppend<T>(xs: seq<T>, ys: seq<T>, p: T -> bool)
    requires Find(xs, p).Some?
    ensures Find(xs + ys, p) == Find(xs, p)
  {
    var i := IndexOf(xs, p).value;
    IndexOfPrefix(xs, ys, p, i);
  }

  lemma IndexOfPrefix<T>(xs: seq<T>, ys: seq<T>, p: T -> bool, i: nat)
    requires IndexOf(xs, p) == Some(i)
    ensures IndexOf(xs + ys, p) == Some(i)
  {
    assert p((xs + ys)[i]);
    assert forall j :: 0 <= j < i ==> (xs + ys)[j] == xs[j];
  }

  /** True when some element satisfies `p`. */
  function Any<T>(xs: seq<T>, p: T -> bool): (b: bool)
    ensures b <==> exists i :: 0 <= i < |xs| && p(xs[i])
  {
    if |xs| == 0 then false
    else p(xs[0]) || Any(xs[1..], p)
  }

  /** The elements satisfying `p`, in their original order. */
  function Filter<T>(xs: seq<T>, p: T -> bool): (r: seq<T>)
    ensures |r| <= |xs|
    ensures forall i :: 0 <= i < |r| ==> r[i] in xs && p(r[i])
    ensures forall i :: 0 <= i < |xs| && p(xs[i]) ==> xs[i] in r
  {
    if |xs| == 0 then []
    else if p(xs[0]) then [xs[0]] + Filter(xs[1..], p)
    else Filter(xs[1..], p)
  }

  /** Filtering distributes over concatenation, so it keeps the original order. */
  lemma {:induction false} FilterAppend<T>(xs: seq<T>, ys: seq<T>, p: T -> bool)
    ensures Filter(xs + ys, p) == Filter(xs, p) + Filter(ys, p)
  {
    if |xs| == 0 {
      assert xs + ys == ys;
    } else {
      assert (xs + ys)[1..] == xs[1..] + ys;
      FilterAppend(xs[1..], ys, p);
    }
  }
}

=== FILE: scenarios.dfy ===
/** Worked examples on the seed store: the seed reservation holds room 201 of
    hotel 2 from 2024-08-10 to 2024-08-15 for user 1. */
module Scenarios {
  import opened Wrappers
  import opened Dates
  import opened Types
  import opened Catalog
  import opened Engine
  import opened Listing
  import opened Invariants

  function Request(roomId: int, checkIn: Date, checkOut: Date): BookingRequest {
    BookingRequest(1, 2, roomId, checkIn, checkOut)
  }

  /** 2024-08-12 .. 2024-08-14 on room 201 falls inside the seed stay and is rejected. */
  lemma OverlappingRequestRejected(now: nat)
    ensures CreateBooking(Initial(), Request(201, Date(2024, 8, 12), Date(2024, 8, 14)), now)
            == Step(Initial(), Failure(DatesUnavailable))
  {
    assert Blocks(Initial().reservations[0], 201, Date(2024, 8, 12), Date(2024, 8, 14));
  }

  /** Starting on 2024-08-15, the day the seed stay ends, is accepted. */
  lemma TouchingRequestAccepted(now: nat)
    ensures CreateBooking(Initial(), Request(201, Date(2024, 8, 15), Date(2024, 8, 18)), now).result.Success?
  {
  }

  /** The same dates on the other room of the hotel are free. */
  lemma OtherRoomFree(now: nat)
    ensures CreateBooking(Initial(), Request(202, Date(2024, 8, 12), Date(2024, 8, 14)), now).result.Success?
  {
  }

  /** The service does not check the range: check-in 2024-09-01 with check-out
      2024-08-30 is accepted and stored as CONFIRMED. */
  lemma InvertedRangeAccepted(now: nat)
    ensures var r := CreateBooking(Initial(), Request(201, Date(2024, 9, 1), Date(2024, 8, 30)), now);
            r.result.Success? && |r.store.reservations| == 2
  {
  }

  /** An inverted request, check-in 2024-08-14 with check-out 2024-08-12 on room 201,
      occupies no night at all, yet the overlap test rejects it against the seed stay. */
  lemma {:induction false} InvertedRequestBlocked(now: nat)
    ensures CreateBooking(Initial(), Request(201, Date(2024, 8, 14), Date(2024, 8, 12)), now)
            == Step(Initial(), Failure(DatesUnavailable))
    ensures forall d :: !InStay(d, Reservation("", 1, 201, 2, Date(2024, 8, 14), Date(2024, 8, 12), Confirmed))
  {
    assert Blocks(Initial().reservations[0], 201, Date(2024, 8, 14), Date(2024, 8, 12));
    var n := Reservation("", 1, 201, 2, Date(2024, 8, 14), Date(2024, 8, 12), Confirmed);
    forall d | InStay(d, n)
      ensures false
    {
      BeforeIsStrictTotalOrder(d, Date(2024, 8, 12), Date(2024, 8, 14));
    }
  }

  /** After the seed reservation is cancelled, the rejected request goes through. */
  lemma CancelThenRebook(now: nat)
    ensures var s := CancelBooking(Initial(), "res-1672531200000").store;
            CreateBooking(s, Request(201, Date(2024, 8, 12), Date(2024, 8, 14)), now).result.Success?
  {
    var s := CancelBooking(Initial(), "res-1672531200000").store;
    assert s.reservations[0].status == Cancelled;
  }

  function CancelledSeed(): (s: Store)
    ensures s.reservations == [SeedReservation().(status := Cancelled)] && s.hotels == SeedHotels()
  {
    var s := CancelBooking(Initial(), "res-1672531200000").store;
    assert s.reservations[0] == SeedReservation().(status := Cancelled);
    s
  }

  /** After cancellation user 1 has no bookings listed. */
  lemma CancelledLeavesUserListing()
    ensures BookingsForUser(CancelledSeed(), 1) == Success([])
  {
    var s := CancelledSeed();
    assert !ListedFor(1, s.reservations[0]);
  }

  /** After cancellation the administrator's list still shows the reservation, now CANCELLED. */
  lemma CancelledStaysInAdminListing()
    ensures AllBookings(CancelledSeed()).Success?
    ensures |AllBookings(CancelledSeed()).value| == 1
    ensures AllBookings(CancelledSeed()).value[0].reservation.status == Cancelled
  {
    var s := CancelledSeed();
    HotelByIdInWellFormed(s.hotels, 2);
    AdminListingOfOne(s);
  }

  /** Cancelling an id the store does not hold throws and changes nothing. */
  lemma UnknownIdRejected()
    ensures CancelBooking(Initial(), "res-0") == Step(Initial(), Failure(ReservationNotFound))
  {
    assert Initial().reservations[0].id != "res-0";
  }

  /** The first hotel added to the seed catalog is hotel 5 with rooms 501 and 502. */
  lemma FirstAddedHotel(d: HotelDetails)
    ensures var h := AddHotel(Initial(), d).1;
            h.id == 5 && h.rooms[0].id == 501 && h.rooms[1].id == 502
  {
  }

  /** Logging in as 'admin' yields the administrator. */
  lemma AdminLogin()
    ensures Login(Initial(), "admin") == Some(User(2, "admin", "Admin User", Admin))
  {
    UserByNameUnique(SeedUsers(), 1);
  }

  /** Logging in under a name nobody has yields nothing. */
  lemma UnknownLogin()
    ensures Login(Initial(), "nobody").None?
  {
  }
}

=== FILE: types.dfy ===
/** The records of the reservation system and their closed enumerations (types.ts). */
module Types {
  import opened Wrappers
  import opened Dates

  /** Room type: exactly one of 'Single', 'Double', 'Suite'. */
  datatype RoomType = Single | Double | Suite

  /** Reservation status: exactly one of 'CONFIRMED', 'CANCELLED'. */
  datatype Status = Confirmed | Cancelled

  /** User role: exactly one of 'USER', 'ADMIN'. */
  datatype Role = Customer | Admin

  /** The hotel-level amenity tags, a closed set. */
  datatype HotelAmenity = FreeCancellation | FreeBreakfast | CoupleFriendly

  /** A room always carries the id of the hotel that owns it. */
  datatype Room = Room(
    id: int,
    hotelId: int,
    kind: RoomType,
    price: int,
    roomNumber: string,
    amenities: seq<string>)

  /** A hotel and its rooms; the rating, description and image references are display-only and not modelled. */
  datatype Hotel = Hotel(
    id: int,
    name: string,
    address: string,
    priceRange: string,
    rooms: seq<Room>,
    amenities: seq<HotelAmenity>)

  /** A reservation: a string id, numeric references, a date range and a status. */
  datatype Reservation = Reservation(
    id: string,
    userId: int,
    roomId: int,
    hotelId: int,
    checkIn: Date,
    checkOut: Date,
    status: Status)

  datatype User = User(id: int, username: string, fullName: string, role: Role)

  function RoomTypeName(t: RoomType): string {
    match t
    case Single => "Single"
    case Double => "Double"
    case Suite => "Suite"
  }

  /** The room type a literal names, if any: the three literals and nothing else. */
  function RoomTypeOf(s: string): (r: Option<RoomType>)
    ensures r.Some? <==> s in {"Single", "Double", "Suite"}
    ensures r.Some? ==> RoomTypeName(r.value) == s
  {
    if s == "Single" then Some(Single)
    else if s == "Double" then Some(Double)
    else if s == "Suite" then Some(Suite)
    else None
  }

  function StatusName(st: Status): string {
    match st
    case Confirmed => "CONFIRMED"
    case Cancelled => "CANCELLED"
  }

  /** The status a literal names: 'CONFIRMED' or 'CANCELLED' and nothing else. */
  function StatusOf(s: string): (r: Option<Status>)
    ensures r.Some? <==> s in {"CONFIRMED", "CANCELLED"}
    ensures r.Some? ==> StatusName(r.value) == s
  {
    if s == "CONFIRMED" then Some(Confirmed)
    else if s == "CANCELLED" then Some(Cancelled)
    else None
  }

  function RoleName(role: Role): string {
    match role
    case Customer => "USER"
    case Admin => "ADMIN"
  }

  /** The role a literal names: 'USER' or 'ADMIN' and nothing else. */
  function RoleOf(s: string): (r: Option<Role>)
    ensures r.Some? <==> s in {"USER", "ADMIN"}
    ensures r.Some? ==> RoleName(r.value) == s
  {
    if s == "USER" then Some(Customer)
    else if s == "ADMIN" then Some(Admin)
    else None
  }

  /** Each enumeration value has one literal and that literal reads back as it. */
  lemma EnumerationsRoundTrip(t: RoomType, st: Status, role: Role)
    ensures RoomTypeOf(RoomTypeName(t)) == Some(t)
    ensures StatusOf(StatusName(st)) == Some(st)
    ensures RoleOf(RoleName(role)) == Some(role)
  {
  }
}

=== FILE: wrappers.dfy ===
/** Option and Result, the two failure-carrying shapes the engine's answers take. */
module Wrappers {

  /** A value that may be absent: the model of a JavaScript `undefined` result. */
  datatype Option<+T> = None | Some(value: T)

  /** Either a value or an error: the model of a returned value versus a thrown `Error`. */
  datatype Result<+R, +E> = Success(value: R) | Failure(error: E)
}
